=== FILE: README.md ===
# roll-and-write-canvas: the tabletop draft `app.js`, modelled in Dafny

`app.js` is an early, single-file draft of a virtual tabletop. A background
image is loaded onto a canvas. The user draws freehand strokes with a pen and
can undo them one at a time. Ctrl-click stamps 40-pixel markers, which can be
dragged around a layer above the canvas. A text field with a "Roll" button
rolls dice written as `NdM`.

This project models the pure logic inside the page's event handlers:

- `Text` (`text.dfy`): JavaScript's `trim`, the ASCII digit class `\d`, and
  the decimal value `parseInt` gives a run of digits.
- `Dice` (`dice.dfy`): the roll handler. It trims the input, matches it
  against `^(\d+)?d(\d+)$` case-insensitively, and sets the count to
  `parseInt(group1) || 1`. Each roll is `floor(r * sides) + 1` for a supplied
  draw `r` in `[0, 1)`. The total is a left fold of the rolls. An invalid
  input raises the alert and leaves the result box unchanged.
- `Drawing` (`drawing.dfy`): the pen. It covers `isDrawing`, the snapshot list
  `drawHistory`, and the picture the canvas shows. Snapshots are opaque
  tokens.
- `Markers` (`markers.dfy`): marker creation at `(x - 20, y - 20)`, the
  selection, and the drag clamp `max(0, min(extent - 40, v))`.
- `Tabletop` (`tabletop.dfy`): the whole board as one immutable record, every
  handler as an `Event`, `Step` and `Run`, and the invariants that hold
  across any sequence of events.
- `Wrappers` (`wrappers.dfy`): the `Option` type.

Later drafts of the program add things this file does not have: a
pan/zoom viewport, a 50-entry history cap, line, rectangle and eraser tools,
custom face sets, `.d<name>` rolls, counters and persistence, and they anchor
markers at their centre. `app.js` stores each marker's
top-left corner, 20 pixels up and left of the click, and keeps the history
unbounded. The model follows `app.js`.

## Model

| member | source | states |
|---|---|---|
| Text.TrimStart | app.js:158 | the result is the suffix of the input after its leading trimmable characters, and it does not start with one |
| Text.TrimEnd | app.js:158 | the result is the prefix of the input before its trailing trimmable characters, and it does not end with one |
| Text.Trim | app.js:158 | `trim()` returns a slice of the input with only trimmable characters outside it and none at either end |
| Text.TrimTrimmed | app.js:158 | trimming a string with no trimmable character at either end returns it unchanged |
| Text.TrimIdempotent | app.js:158 | trimming twice is the same as trimming once |
| Text.TrimPadded | app.js:158 | trimmable characters added before and after any input are removed again, so they do not change what is rolled |
| Text.TrimStartAppend | app.js:158 | trimmable characters after a string do not change where its leading trim stops |
| Text.DigitValue | app.js:163-164 | a digit's value is below ten |
| Text.DecimalValueZero | app.js:163 | a run of digits parses to 0, the falsy case of `parseInt(...) \|\| 1`, exactly when every digit is `0` |
| Text.ShowNat | app.js:163-164 | the inverse of the decimal value `parseInt` reads: the decimal spelling of a number has digits only, has no leading zero unless the number is zero, and parses back to the number |
| Dice.LeadingDigits | app.js:159 | gives the length of the longest all-digit prefix: everything before it is a digit and the next character is not |
| Dice.MatchPosition | app.js:159 | in any match, the `d` is at the first non-digit, so the match is unique |
| Dice.Match | app.js:159-160 | a match exists exactly when the input is optional digits, then `d` or `D`, then one or more digits; the capture groups are those runs, and the first group is absent when it took no digits |
| Dice.ParseInt | app.js:163-164 | `parseInt` of an absent group is `NaN`; a present group gives a number |
| Dice.OrOne | app.js:163 | `v \|\| 1` is at least 1: `NaN` and 0 become 1, and any other value is kept |
| Dice.Parse | app.js:159-164 | an input is accepted exactly when the regular expression matches it, and an accepted count is at least 1 |
| Dice.ParseAccepted | app.js:159-164 | an accepted count is the value of the leading digits, or 1 if there are none or all are zeros; the sides are the value of the trailing digits |
| Dice.ParseFormat | app.js:159-164 | the canonical spelling `NdM` of any expression with a count of at least 1 parses back to that expression |
| Dice.ParseExamples | app.js:158-177 | `3d6` gives 3 dice of 6 sides; `d20` and `0D8` give count 1; `xyz`, `3d` and `-1d6` are rejected |
| Dice.Draw | app.js:167 | `floor(r * sides)` is the greatest integer not above `r * sides`; it lies in `[0, sides)` when sides is at least 1, and is 0 when sides is 0 |
| Dice.Rolls | app.js:166-168 | gives one roll per draw, in order: roll i is `floor(r_i * sides) + 1` for draw i; each roll lies in `[1, sides]`, or is exactly 1 when sides is 0 |
| Dice.ReduceIsSum | app.js:169 | the `reduce` left fold starting from `acc` equals `acc` plus the sum of the rolls |
| Dice.SumBounds | app.js:169 | n values that each lie in `[lo, hi]` sum to a value in `[n*lo, n*hi]` |
| Dice.RollDice | app.js:166-169 | gives exactly `count` rolls, roll i coming from draw i as `floor(r_i * sides) + 1`, each in range; the total is their sum and lies in `[count, count*sides]` (it equals `count` when sides is 0) |
| Dice.RollButton | app.js:157-179 | the alert is raised exactly when the trimmed input does not match, and then the result box keeps its previous roll; otherwise the box shows the roll of the parsed expression from the draws: the trimmed input, `count` rolls taken from the first `count` draws, each in `[1, sides]`, and their sum |
| Drawing.Initial | app.js:8-9 | before any image is loaded, the history is empty and no stroke is in progress |
| Drawing.LoadImage | app.js:46-47 | loading an image resets the history to exactly one entry, the loaded picture, which the canvas shows |
| Drawing.PenDown | app.js:78 | a plain mousedown starts a stroke and changes neither the canvas nor the history |
| Drawing.PenMove | app.js:87-92 | a mousemove paints only while drawing and never touches the history |
| Drawing.PenUp | app.js:94-99 | a mouseup while drawing appends exactly one snapshot, the current canvas, keeps the earlier entries, and clears `isDrawing`; otherwise it changes nothing |
| Drawing.Leave | app.js:101-103 | a mouseleave clears `isDrawing` and takes no snapshot |
| Drawing.Undo | app.js:106-111 | with more than one entry, undo removes only the last one and the canvas shows the new last entry; with one or none it changes nothing; the base entry is never removed |
| Drawing.UndoCommittedStroke | app.js:94-111 | undo right after a completed stroke restores the earlier history and shows its last snapshot |
| Drawing.UndoKeepsBase | app.js:106-111 | any number of undos keeps the base snapshot; enough undos leave exactly that snapshot |
| Drawing.PaintShowsLast | app.js:87-92 | during a stroke the canvas shows the last picture painted and the history is untouched |
| Drawing.CompletedStroke | app.js:73-99 | mousedown, mousemoves and mouseup together append exactly one snapshot: the final picture, or the unchanged canvas for a click with no mousemove |
| Drawing.AbandonedStroke | app.js:101-110 | a stroke ended by mouseleave appends nothing but its ink stays; the next undo erases it along with the previous stroke, and with only the base entry left it cannot be undone |
| Markers.Initial | app.js:10-12 | at first there are no markers and none is selected |
| Markers.Clamp | app.js:144-148 | the clamped position is never negative; it is at most the bound when the bound is non-negative; it equals the raw position when that is already within `[0, bound]` |
| Markers.ClampIdempotent | app.js:147-148 | clamping an already-clamped position changes nothing |
| Markers.ClampMonotone | app.js:147-148 | clamping keeps positions in order |
| Markers.Create | app.js:114-135 | a new marker is appended with its top-left 20 pixels up and left of the click, so it is centred on the click; earlier markers and the selection are untouched |
| Markers.Grab | app.js:125-131 | a marker mousedown selects that marker and records the grab offsets, and moves no marker |
| Markers.Drag | app.js:138-150 | only the selected marker moves; it goes to the clamped pointer-minus-offset position and stays inside the layer whenever the layer is at least 40 pixels wide and high; with nothing selected, nothing changes |
| Markers.Release | app.js:152-154 | any mouseup clears the selection and leaves the markers alone |
| Markers.DragAfterRelease | app.js:138-154 | after a mouseup, no mousemove moves a marker |
| Markers.GrabDoesNotJump | app.js:125-148 | grabbing a marker that lies inside the layer and moving the pointer by nothing leaves every marker where it was |
| Tabletop.Start | app.js:7-14 | the page starts with an empty history, no stroke, no markers and no selection |
| Tabletop.StepInk | app.js:46-111 | only an image load, a mouseup or an undo changes the history; a non-empty history stays non-empty and keeps its base unless an image is loaded |
| Tabletop.StepLayer | app.js:114-154 | the marker handlers keep the selection valid and never remove a marker |
| Tabletop.Step | app.js:73-154 | each handler preserves a valid selection and never removes a marker; layer events leave the canvas alone and canvas events leave the layer alone; only load, mouseup and undo change the history; a non-empty history stays non-empty and keeps its base unless an image is loaded |
| Tabletop.Run | app.js:73-154 | across any sequence of events the selection stays valid, the number of markers never falls, and a non-empty history never becomes empty |
| Tabletop.RunAppend | app.js:73-154 | handling two sequences of events one after the other is the same as handling them joined |
| Tabletop.RunKeepsBase | app.js:106-111 | across any sequence of events without an image load, the base snapshot stays first in the history |
| Tabletop.UndoAfterLoad | app.js:46-111 | after an image load, any number of undo clicks leaves exactly the loaded picture in the history and on the canvas |
| Tabletop.CanvasDownEitherOr | app.js:73-85 | a ctrl-mousedown places a marker at `(x - 20, y - 20)` and starts no stroke; a plain mousedown starts a stroke and places nothing |
| Tabletop.RunMoves | app.js:87-92 | the canvas mousemove handler, run alone, changes only the canvas, as painting the pictures in order does |
| Tabletop.RunMotions | app.js:87-150 | mousemoves that reach both the canvas and, by bubbling, the document paint the canvas exactly as the canvas handler alone would, and drag the selected marker, if any, to the clamped position of the last pointer sample; no other marker moves, and the selection and grab offsets stay as they were |
| Tabletop.StrokeHistory | app.js:73-103 | a stroke ended by a mouseup over the canvas appends exactly one snapshot (the last picture painted, or the unchanged canvas when there was no mousemove) and clears the selection; one ended by leaving the canvas appends none; as its mousemoves also reach the document handler (app.js:138-150), only a marker already selected when the stroke began can move, and with none selected no marker moves |

## Left out

- Image upload, `FileReader` and `Image` decoding, and `calculateFitScale` with the canvas and layer sizing (lines 19-53, apart from lines 46-47). This is browser I/O and floating-point division by the window size. A loaded image is the picture an `ImageLoaded` event carries.
- Canvas pixel operations (`drawImage`, `beginPath`, `lineTo`, `stroke`, `getImageData`, `putImageData`). A snapshot is an opaque token. A mousemove during a stroke carries the picture it paints.
- `Math.random`. The draws are a supplied sequence of reals in `[0, 1)`, consumed from the front.
- Dice.Draw: uses exact real multiplication and `Floor`, not IEEE-754 double arithmetic. app.js:167 rounds `r * sides` to a double for every number of sides. When the exact product lies just below an integer, it can round up to that integer, and app.js then rolls one higher than the model for the same draw. For example, sides 3 and the double nearest 1/3 give an exact product of 1 − 2^-54, which rounds to 1.0. The range claims, each roll in `[1, sides]`, also hold for the double product when sides is below 2^53.
- Dice.RollDice: the rolls and the running total are exact integers. app.js:169 adds them as IEEE-754 doubles, and a running total above 2^53 rounds at each addition; that rounding is not modelled, so for such totals the box would show a rounded value rather than the exact `Sum(rolls)`.
- Dice.Parse: treats counts and sides as unbounded integers. `parseInt` loses precision on digit runs worth more than 2^53, and a run worth about 1.8·10^308 or more parses to `Infinity`; every roll is then `Infinity` (or `NaN` for a draw of exactly 0), and so is the total. `Array.from` throws a `RangeError` for a count of 2^32 or more. Neither is modelled.
- JavaScript strings are sequences of UTF-16 code units. The model's `char` is a Unicode scalar value, so lone surrogates are not represented. They are neither trimmable nor digits, so the parse result would not change.
- Rendering: the result box's HTML, how the alert is displayed, the colour picker (lines 55-62), and creating DOM elements and registering listeners. The colour of a new marker is a parameter of the ctrl-mousedown event.
- `getMousePos` and `getBoundingClientRect`/`clientWidth` measurements (lines 65-71, 127-129, 140-145). Pointer positions, grab offsets and layer extents are event parameters. Markers are assumed to be positioned relative to the layer with no border.
- Markers.Create: marker positions, and the arithmetic on them, are exact reals, not IEEE-754 doubles. app.js:118-119 computes `x - 20` and app.js:141-142 computes `e.clientX - rect.left - markerOffsetX` in doubles, so `left + 20 == x` holds only up to rounding: (0.1 − 20) + 20 is 0.10000000000000142. The same goes for Markers.GrabDoesNotJump, which reads grab offsets back through `getBoundingClientRect` (app.js:127). Layout may round `style.left` and `style.top`, which is not modelled either. `Clamp` takes only min and max, which are exact.
- Event delivery: the browser's dispatch, which decides which elements receive an event, is not modelled. The event sequences spell out bubbling instead. A mouseup over the canvas is written as `CanvasUp` followed by `DocumentUp`. A mousemove over the canvas reaches the canvas and then the document, so it is written as `CanvasMove` followed by `DocumentMove` (`Tabletop.Motions`).

=== FILE: dice.dfy ===
/** The dice roller behind the "Roll" button: the trimmed input is matched
    against the regular expression `^(\d+)?d(\d+)$` with the `i` flag, the two
    capture groups become a count (`parseInt(group1) || 1`) and a number of
    sides (`parseInt(group2)`), and `count` draws of `Math.random()` become the
    rolls `floor(r * sides) + 1`, whose sum is shown as the total. */
module Dice {
  import opened Wrappers
  import opened Text

  /** The letter between the two digit runs. With the `i` flag and without `u`,
      a pattern character matches every character whose upper-case form is
      the same as its own; for `d` that is `d` and `D` only. */
  predicate IsDieLetter(c: char) {
    c == 'd' || c == 'D'
  }

  /** The regular expression matches `s` with its `d` at position `i`: an
      optional run of digits before it and a non-empty run of digits after it,
      and nothing else (the expression is anchored at both ends). */
  ghost predicate MatchesAt(s: string, i: int) {
    0 <= i < |s| - 1 && AllDigits(s[..i]) && IsDieLetter(s[i]) && AllDigits(s[i + 1..])
  }

  ghost predicate Matches(s: string) {
    exists i :: MatchesAt(s, i)
  }

  /** The capture groups of a successful match: `count` is absent (the
      `undefined` of JavaScript) when the optional group took no digits. */
  datatype Captures = Captures(count: Option<string>, sides: string)

  ghost predicate WellFormed(c: Captures) {
    && (c.count.Some? ==> |c.count.value| >= 1 && AllDigits(c.count.value))
    && |c.sides| >= 1 && AllDigits(c.sides)
  }

  /** The capture groups of the match whose `d` sits at position `i`. */
  function CapturesAt(s: string, i: nat): Captures
    requires i < |s|
  {
    Captures(if i == 0 then None else Some(s[..i]), s[i + 1..])
  }

  /** The length of the longest run of digits at the front of `s`. */
  function LeadingDigits(s: string): (k: nat)
    ensures k <= |s| && AllDigits(s[..k])
    ensures k < |s| ==> !IsDigit(s[k])
  {
    if |s| > 0 && IsDigit(s[0]) then
      var k := 1 + LeadingDigits(s[1..]);
      assert forall j :: 1 <= j < k ==> s[..k][j] == s[1..][..k - 1][j - 1];
      k
    else 0
  }

  /** The position of the `d` of a match is forced: it is the first non-digit. */
  lemma MatchPosition(s: string, i: int)
    requires MatchesAt(s, i)
    ensures i == LeadingDigits(s)
  {
  }

  /** `input.match(diceRegex)`: the capture groups when the expression matches
      and `None` (JavaScript's `null`) otherwise. */
  function Match(s: string): (m: Option<Captures>)
    ensures m.Some? ==> Matches(s) && WellFormed(m.value)
    ensures forall i :: MatchesAt(s, i) ==> m == Some(CapturesAt(s, i))
    ensures m.None? ==> !Matches(s)
  {
    var k := LeadingDigits(s);
    if k < |s| - 1 && IsDieLetter(s[k]) && AllDigits(s[k + 1..]) then
      assert MatchesAt(s, k);
      Some(CapturesAt(s, k))
    else
      assert forall i :: MatchesAt(s, i) ==> i == k by {
        forall i | MatchesAt(s, i) { MatchPosition(s, i); }
      }
      None
  }

  /** `parseInt` applied to a capture group; `None` stands for `NaN`, which
      is what `parseInt(undefined)` returns. */
  function ParseInt(g: Option<string>): (v: Option<nat>)
    requires g.Some? ==> AllDigits(g.value)
    ensures v.Some? <==> g.Some?
  {
    match g
    case None => None
    case Some(ds) => Some(DecimalValue(ds))
  }

  /** `v || 1`: both falsy numbers, `NaN` and `0`, give way to `1`. */
  function OrOne(v: Option<nat>): (n: nat)
    ensures n >= 1
    ensures v.Some? && v.value != 0 ==> n == v.value
    ensures v.None? || v.value == 0 ==> n == 1
  {
    match v
    case None => 1
    case Some(x) => if x == 0 then 1 else x
  }

  /** A dice expression `NdM`: roll `count` dice with `sides` sides each. */
  datatype DiceExpr = DiceExpr(count: nat, sides: nat)

  /** Lines 159-164: match, then read the count and the sides
      out of the capture groups. */
  function Parse(s: string): (r: Option<DiceExpr>)
    ensures r.Some? <==> Matches(s)
    ensures r.Some? ==> r.value.count >= 1
  {
    match Match(s)
    case None => None
    case Some(c) => Some(DiceExpr(OrOne(ParseInt(c.count)), DecimalValue(c.sides)))
  }

  /** What an accepted input means: the count is the value of the digits
      before the `d`, except that no digits or only zeros give 1; the sides are
      the value of the digits after it. */
  lemma ParseAccepted(s: string, i: nat)
    requires MatchesAt(s, i)
    ensures Parse(s) == Some(DiceExpr(
              if forall k :: 0 <= k < i ==> s[k] == '0' then 1 else DecimalValue(s[..i]),
              DecimalValue(s[i + 1..])))
  {
    var p := s[..i];
    DecimalValueZero(p);
    assert (forall k :: 0 <= k < i ==> s[k] == '0') <==> (forall k :: 0 <= k < |p| ==> p[k] == '0') by {
      assert forall k :: 0 <= k < i ==> p[k] == s[k];
    }
  }

  /** The canonical spelling of a dice expression, in the format `NdM` the alert asks for. */
  function Format(e: DiceExpr): string {
    ShowNat(e.count) + "d" + ShowNat(e.sides)
  }

  /** Parsing the canonical spelling gives the expression back. */
  lemma ParseFormat(e: DiceExpr)
    requires e.count >= 1
    ensures Parse(Format(e)) == Some(e)
  {
    var s := Format(e);
    var c := ShowNat(e.count);
    var i := |c|;
    assert s[..i] == c;
    assert s[i + 1..] == ShowNat(e.sides);
    assert MatchesAt(s, i);
    ParseAccepted(s, i);
    assert s[0] == c[0];
  }

  /** Typical inputs and what the handler does with them. */
  lemma ParseExamples()
    ensures Parse("3d6") == Some(DiceExpr(3, 6))
    ensures Parse("d20") == Some(DiceExpr(1, 20))
    ensures Parse("0D8") == Some(DiceExpr(1, 8))
    ensures Parse("xyz") == None
    ensures Parse("3d") == None
    ensures Parse("-1d6") == None
  {
    assert MatchesAt("3d6", 1);
    ParseAccepted("3d6", 1);
    assert MatchesAt("d20", 0);
    ParseAccepted("d20", 0);
    assert MatchesAt("0D8", 1);
    ParseAccepted("0D8", 1);
    assert forall i :: !MatchesAt("xyz", i) by {
      forall i | MatchesAt("xyz", i) { MatchPosition("xyz", i); }
    }
    assert forall i :: !MatchesAt("3d", i) by {
      forall i | MatchesAt("3d", i) { MatchPosition("3d", i); }
    }
    assert forall i :: !MatchesAt("-1d6", i) by {
      forall i | MatchesAt("-1d6", i) { MatchPosition("-1d6", i); }
    }
  }

  /** The values `Math.random()` may return: reals in `[0, 1)`. */
  ghost predicate Draws(randoms: seq<real>) {
    forall i :: 0 <= i < |randoms| ==> 0.0 <= randoms[i] < 1.0
  }

  /** `Math.floor(r * sides)`: the greatest integer not above the product. */
  function Draw(r: real, sides: nat): (d: int)
    requires 0.0 <= r < 1.0
    ensures d as real <= r * sides as real < d as real + 1.0
    ensures sides >= 1 ==> 0 <= d < sides
    ensures sides == 0 ==> d == 0
  {
    assert 0.0 <= r * sides as real <= sides as real;
    assert sides >= 1 ==> r * sides as real < sides as real;
    (r * sides as real).Floor
  }

  /** One die per draw, each `Math.floor(r * sides) + 1`. */
  function Rolls(sides: nat, randoms: seq<real>): (rolls: seq<int>)
    requires Draws(randoms)
    ensures |rolls| == |randoms|
    ensures sides >= 1 ==> forall i :: 0 <= i < |rolls| ==> 1 <= rolls[i] <= sides
    ensures sides == 0 ==> forall i :: 0 <= i < |rolls| ==> rolls[i] == 1
    ensures forall i :: 0 <= i < |rolls| ==> rolls[i] == Draw(randoms[i], sides) + 1
  {
    if |randoms| == 0 then []
    else [Draw(randoms[0], sides) + 1] + Rolls(sides, randoms[1..])
  }

  /** The sum of the rolls, stated independently of how the handler computes it. */
  function Sum(rolls: seq<int>): int {
    if |rolls| == 0 then 0 else rolls[0] + Sum(rolls[1..])
  }

  /** `rolls.reduce((sum, roll) => sum + roll, acc)`: a left fold. */
  function Reduce(acc: int, rolls: seq<int>): int
    decreases |rolls|
  {
    if |rolls| == 0 then acc else Reduce(acc + rolls[0], rolls[1..])
  }

  lemma {:induction false} ReduceIsSum(acc: int, rolls: seq<int>)
    ensures Reduce(acc, rolls) == acc + Sum(rolls)
    decreases |rolls|
  {
    if |rolls| > 0 {
      ReduceIsSum(acc + rolls[0], rolls[1..]);
    }
  }

  /** A sum of values that each lie in `[lo, hi]` lies in `[n * lo, n * hi]`. */
  lemma {:induction false} SumBounds(rolls: seq<int>, lo: int, hi: int)
    requires forall i :: 0 <= i < |rolls| ==> lo <= rolls[i] <= hi
    ensures |rolls| * lo <= Sum(rolls) <= |rolls| * hi
  {
    if |rolls| > 0 {
      SumBounds(rolls[1..], lo, hi);
      assert |rolls| * lo == (|rolls| - 1) * lo + lo;
      assert |rolls| * hi == (|rolls| - 1) * hi + hi;
    }
  }

  /** What the result box shows after a successful roll: the trimmed input,
      the rolls and their total. */
  datatype Roll = Roll(input: string, rolls: seq<int>, total: int)

  /** Lines 166-169: roll `e.count` dice, consuming that many draws from the
      front of `randoms`, and total them. */
  function RollDice(input: string, e: DiceExpr, randoms: seq<real>): (r: Roll)
    requires Draws(randoms) && e.count <= |randoms|
    ensures r.input == input
    ensures |r.rolls| == e.count
    ensures forall i :: 0 <= i < e.count ==> r.rolls[i] == Draw(randoms[i], e.sides) + 1
    ensures e.sides >= 1 ==> forall i :: 0 <= i < |r.rolls| ==> 1 <= r.rolls[i] <= e.sides
    ensures e.sides == 0 ==> forall i :: 0 <= i < |r.rolls| ==> r.rolls[i] == 1
    ensures r.total == Sum(r.rolls)
    ensures e.sides >= 1 ==> e.count <= r.total <= e.count * e.sides
    ensures e.sides == 0 ==> r.total == e.count
  {
    var rolls := Rolls(e.sides, randoms[..e.count]);
    ReduceIsSum(0, rolls);
    SumBounds(rolls, 1, if e.sides >= 1 then e.sides else 1);
    Roll(input, rolls, Reduce(0, rolls))
  }

  const InvalidFormat: string := "Invalid dice format. Use format: NdM (e.g., 3d6, d20)"

  /** The screen after a click: the roll in the result box, and the alert
      raised by this click, if any. */
  datatype Screen = Screen(shown: Option<Roll>, alert: Option<string>)

  /** The draws are enough for the expression `t` parses to, if any. */
  predicate EnoughDraws(t: string, randoms: seq<real>) {
    match Parse(t)
    case None => true
    case Some(e) => e.count <= |randoms|
  }

  /** The whole click handler, lines 157-179: `shown` is what the result box
      held before the click and `value` the text field's contents. An invalid
      input raises the alert and leaves the result box as it was. */
  function RollButton(shown: Option<Roll>, value: string, randoms: seq<real>): (c: Screen)
    requires Draws(randoms) && EnoughDraws(Trim(value), randoms)
    ensures c.alert.Some? <==> !Matches(Trim(value))
    ensures c.alert.Some? ==> c.alert.value == InvalidFormat && c.shown == shown
    ensures c.alert.None? ==>
              && Parse(Trim(value)).Some?
              && c.shown.Some? && c.shown.value.input == Trim(value)
              && |c.shown.value.rolls| == Parse(Trim(value)).value.count
              && c.shown.value.total == Sum(c.shown.value.rolls)
    ensures c.alert.None? ==> c.shown == Some(RollDice(Trim(value), Parse(Trim(value)).value, randoms))
  {
    var input := Trim(value);
    match Parse(input)
    case Some(e) => Screen(Some(RollDice(input, e, randoms)), None)
    case None => Screen(shown, Some(InvalidFormat))
  }
}

=== FILE: drawing.dfy ===
/** The pen and its undo history: what the canvas shows, the list of snapshots
    `drawHistory`, and the flag `isDrawing` that is true between a plain
    mousedown on the canvas and the mouseup or mouseleave that ends the stroke. */
module Drawing {

  /** A full-canvas capture (`getImageData`). Only its identity matters here:
      the pixels are never inspected, only stored and put back. */
  datatype Snapshot = Snapshot(token: nat)

  datatype Ink = Ink(shown: Snapshot, history: seq<Snapshot>, drawing: bool)

  function Last(h: seq<Snapshot>): Snapshot
    requires |h| > 0
  {
    h[|h| - 1]
  }

  /** The state when the page has loaded: a blank canvas, no history, no stroke. */
  function Initial(blank: Snapshot): (k: Ink)
    ensures k.history == [] && !k.drawing
  {
    Ink(blank, [], false)
  }

  /** A decoded image is drawn over the whole canvas and the history restarts
      from it (lines 46-47). A stroke in progress is not interrupted. */
  function LoadImage(k: Ink, picture: Snapshot): (r: Ink)
    ensures |r.history| == 1 && r.shown == Last(r.history) == picture
    ensures r.drawing == k.drawing
  {
    Ink(picture, [picture], k.drawing)
  }

  /** A mousedown without ctrl starts a stroke (line 78). */
  function PenDown(k: Ink): (r: Ink)
    ensures r.drawing
    ensures r.shown == k.shown && r.history == k.history
  {
    k.(drawing := true)
  }

  /** A mousemove extends the stroke, painting the canvas into `painted`, but
      only while drawing (lines 88-91). */
  function PenMove(k: Ink, painted: Snapshot): (r: Ink)
    ensures r.history == k.history && r.drawing == k.drawing
    ensures r.shown == (if k.drawing then painted else k.shown)
  {
    if k.drawing then k.(shown := painted) else k
  }

  /** A mouseup ends a stroke in progress and appends exactly one snapshot, the
      canvas as it is now; without a stroke in progress it does nothing
      (lines 95-98). */
  function PenUp(k: Ink): (r: Ink)
    ensures !r.drawing && r.shown == k.shown
    ensures k.drawing ==> |r.history| == |k.history| + 1
                          && r.history[..|k.history|] == k.history && Last(r.history) == k.shown
    ensures !k.drawing ==> r == k
  {
    if k.drawing then Ink(k.shown, k.history + [k.shown], false) else k
  }

  /** A mouseleave abandons the stroke: no snapshot is taken and the ink
      already painted stays on the canvas (line 102). */
  function Leave(k: Ink): (r: Ink)
    ensures !r.drawing && r.shown == k.shown && r.history == k.history
  {
    k.(drawing := false)
  }

  /** The undo button drops the last snapshot and repaints the canvas from the
      one before it, but only while more than one remains (lines 107-110). */
  function Undo(k: Ink): (r: Ink)
    ensures r.drawing == k.drawing
    ensures |k.history| > 1 ==> |r.history| == |k.history| - 1
                                && r.history == k.history[..|r.history|]
                                && r.shown == Last(r.history)
    ensures |k.history| <= 1 ==> r == k
    ensures |k.history| >= 1 ==> |r.history| >= 1 && r.history[0] == k.history[0]
  {
    if |k.history| > 1 then
      var h := k.history[..|k.history| - 1];
      Ink(Last(h), h, k.drawing)
    else k
  }

  /** Undoing a stroke that ended with a mouseup restores the history as it
      was before the stroke and shows the snapshot taken before it. */
  lemma UndoCommittedStroke(k: Ink)
    requires k.drawing && |k.history| >= 1
    ensures Undo(PenUp(k)).history == k.history
    ensures Undo(PenUp(k)).shown == Last(k.history)
    ensures !Undo(PenUp(k)).drawing
  {
  }

  /** The base snapshot survives any number of undos. */
  lemma {:induction false} UndoKeepsBase(k: Ink, n: nat)
    requires |k.history| >= 1
    ensures |UndoTimes(k, n).history| >= 1
    ensures UndoTimes(k, n).history[0] == k.history[0]
    ensures n >= |k.history| - 1 ==> UndoTimes(k, n).history == [k.history[0]]
    decreases n
  {
    if n > 0 {
      UndoKeepsBase(Undo(k), n - 1);
      if |k.history| > 1 {
        assert Undo(k).history == k.history[..|k.history| - 1];
      }
    }
  }

  /** `n` clicks of the undo button. */
  function UndoTimes(k: Ink, n: nat): Ink
    decreases n
  {
    if n == 0 then k else UndoTimes(Undo(k), n - 1)
  }

  /** The canvas after a stroke's mousemoves, each painting the next picture. */
  function Paint(k: Ink, pictures: seq<Snapshot>): Ink
    decreases |pictures|
  {
    if |pictures| == 0 then k else Paint(PenMove(k, pictures[0]), pictures[1..])
  }

  /** During a stroke the canvas ends up showing the last picture painted, and
      the history is untouched. */
  lemma {:induction false} PaintShowsLast(k: Ink, pictures: seq<Snapshot>)
    requires k.drawing
    ensures Paint(k, pictures).history == k.history && Paint(k, pictures).drawing
    ensures Paint(k, pictures).shown == if |pictures| == 0 then k.shown else Last(pictures)
    decreases |pictures|
  {
    if |pictures| > 0 {
      PaintShowsLast(PenMove(k, pictures[0]), pictures[1..]);
      if |pictures| > 1 {
        assert Last(pictures[1..]) == Last(pictures);
      }
    }
  }

  /** A whole stroke — mousedown, mousemoves, mouseup — adds exactly one
      snapshot to the history: the canvas as the last mousemove left it. A
      click with no mousemove pushes a copy of the unchanged canvas, so the
      next undo shows the same picture. */
  lemma CompletedStroke(k: Ink, pictures: seq<Snapshot>)
    ensures PenUp(Paint(PenDown(k), pictures)).history
            == k.history + [if |pictures| == 0 then k.shown else Last(pictures)]
    ensures !PenUp(Paint(PenDown(k), pictures)).drawing
  {
    PaintShowsLast(PenDown(k), pictures);
  }

  /** A stroke that leaves the canvas adds nothing to the history, though its
      ink stays on the canvas. The next undo therefore repaints from the
      snapshot before the previous completed stroke, erasing both; with only
      the base snapshot left, the abandoned ink cannot be undone at all. */
  lemma AbandonedStroke(k: Ink, pictures: seq<Snapshot>)
    requires |pictures| > 0
    ensures Leave(Paint(PenDown(k), pictures)).history == k.history
    ensures Leave(Paint(PenDown(k), pictures)).shown == Last(pictures)
    ensures !Leave(Paint(PenDown(k), pictures)).drawing
    ensures |k.history| > 1 ==>
              Undo(Leave(Paint(PenDown(k), pictures))).shown == k.history[|k.history| - 2]
    ensures |k.history| <= 1 ==>
              Undo(Leave(Paint(PenDown(k), pictures))).shown == Last(pictures)
  {
    PaintShowsLast(PenDown(k), pictures);
  }
}

=== FILE: markers.dfy ===
/** The markers layer: coloured 40-pixel discs stamped with ctrl-click, picked
    up by a mousedown on them and dragged by any mousemove over the document
    until the next mouseup anywhere. Positions are CSS pixels relative to the
    layer's top-left corner. */
module Markers {
  import opened Wrappers

  /** The marker's width and height: the drag keeps this much room to the
      right and below (lines 144-145). */
  const Size: real := 40.0

  /** Half the size: a new marker's top-left corner is this far up and left of
      the click, so that the click lands on its centre (lines 118-119). */
  const Half: real := 20.0

  datatype Marker = Marker(left: real, top: real, color: string)

  /** `selected` is `selectedMarker`, an index into `markers`; the offsets are
      where inside the marker it was grabbed (lines 10-12, 126-129). */
  datatype Layer = Layer(markers: seq<Marker>, selected: Option<nat>, offsetX: real, offsetY: real)

  /** The selection, if any, names a marker that exists. */
  predicate ValidSelection(l: Layer) {
    l.selected.Some? ==> l.selected.value < |l.markers|
  }

  function Initial(): (l: Layer)
    ensures l.markers == [] && l.selected.None? && ValidSelection(l)
  {
    Layer([], None, 0.0, 0.0)
  }

  function Max(a: real, b: real): real {
    if a >= b then a else b
  }

  function Min(a: real, b: real): real {
    if a <= b then a else b
  }

  /** `Math.max(0, Math.min(hi, v))`: the position a drag may give a marker
      along one axis, where `hi` is the layer's extent less the marker size. */
  function Clamp(v: real, hi: real): (r: real)
    ensures r >= 0.0
    ensures hi >= 0.0 ==> r <= hi
    ensures 0.0 <= v <= hi ==> r == v
    ensures v < 0.0 ==> r == 0.0
    ensures 0.0 <= hi < v ==> r == hi
    ensures hi < 0.0 ==> r == 0.0
  {
    Max(0.0, Min(hi, v))
  }

  /** Clamping a clamped position changes nothing. */
  lemma ClampIdempotent(v: real, hi: real)
    ensures Clamp(Clamp(v, hi), hi) == Clamp(v, hi)
  {
  }

  /** Clamping preserves the order of positions: a marker dragged further
      never ends up nearer the origin. */
  lemma ClampMonotone(v: real, w: real, hi: real)
    requires v <= w
    ensures Clamp(v, hi) <= Clamp(w, hi)
  {
  }

  /** `createMarker(x, y, color)`: a marker centred on the click is appended;
      the selection and the grab offsets are untouched (lines 114-135). */
  function Create(l: Layer, x: real, y: real, color: string): (r: Layer)
    ensures |r.markers| == |l.markers| + 1 && r.markers[..|l.markers|] == l.markers
    ensures r.markers[|l.markers|].left + Half == x && r.markers[|l.markers|].top + Half == y
    ensures r.markers[|l.markers|].color == color
    ensures r.selected == l.selected && r.offsetX == l.offsetX && r.offsetY == l.offsetY
    ensures ValidSelection(l) ==> ValidSelection(r)
  {
    l.(markers := l.markers + [Marker(x - Half, y - Half, color)])
  }

  /** A mousedown on marker `id` selects it and records where inside the
      marker the pointer is (lines 125-131). */
  function Grab(l: Layer, id: nat, offsetX: real, offsetY: real): (r: Layer)
    requires id < |l.markers|
    ensures r.markers == l.markers && r.selected == Some(id) && ValidSelection(r)
    ensures r.offsetX == offsetX && r.offsetY == offsetY
  {
    Layer(l.markers, Some(id), offsetX, offsetY)
  }

  /** A mousemove over the document at `(x, y)` moves the selected marker so the
      grab point follows the pointer, clamped to the layer of the given
      `width` and `height`; with nothing selected it does nothing
      (lines 138-150). */
  function Drag(l: Layer, x: real, y: real, width: real, height: real): (r: Layer)
    requires ValidSelection(l)
    ensures r.selected == l.selected && r.offsetX == l.offsetX && r.offsetY == l.offsetY
    ensures |r.markers| == |l.markers| && ValidSelection(r)
    ensures l.selected.None? ==> r == l
    ensures l.selected.Some? ==>
              var i := l.selected.value;
              && (forall j :: 0 <= j < |l.markers| && j != i ==> r.markers[j] == l.markers[j])
              && r.markers[i].color == l.markers[i].color
              && r.markers[i].left == Clamp(x - l.offsetX, width - Size)
              && r.markers[i].top == Clamp(y - l.offsetY, height - Size)
    ensures l.selected.Some? ==>
              var m := r.markers[l.selected.value];
              && 0.0 <= m.left && 0.0 <= m.top
              && (width >= Size ==> m.left + Size <= width)
              && (height >= Size ==> m.top + Size <= height)
  {
    match l.selected
    case None => l
    case Some(i) =>
      var m := l.markers[i];
      var moved := m.(left := Clamp(x - l.offsetX, width - Size), top := Clamp(y - l.offsetY, height - Size));
      l.(markers := l.markers[i := moved])
  }

  /** Any mouseup on the document drops the selection (lines 152-154). */
  function Release(l: Layer): (r: Layer)
    ensures r.selected.None? && ValidSelection(r)
    ensures r.markers == l.markers
  {
    l.(selected := None)
  }

  /** After a mouseup no mousemove moves any marker. */
  lemma DragAfterRelease(l: Layer, x: real, y: real, width: real, height: real)
    ensures Drag(Release(l), x, y, width, height) == Release(l)
  {
  }

  /** Picking a marker up and moving the pointer by nothing leaves it where it
      was, as long as it lies inside the layer: the grab offsets are measured
      from the marker's own corner, so the marker does not jump. */
  lemma GrabDoesNotJump(l: Layer, id: nat, x: real, y: real, width: real, height: real)
    requires id < |l.markers|
    requires 0.0 <= l.markers[id].left <= width - Size
    requires 0.0 <= l.markers[id].top <= height - Size
    ensures
      var g := Grab(l, id, x - l.markers[id].left, y - l.markers[id].top);
      Drag(g, x, y, width, height).markers == l.markers
  {
  }
}

=== FILE: tabletop.dfy ===
/** The whole board as the page's event handlers see it: the pen and undo
    history on the canvas, and the markers layer above it. Every handler of
    the page that touches this state is one `Event`; the two sides share no
    state, and a ctrl-mousedown is the one event that decides between them. */
module Tabletop {
  import opened Wrappers
  import opened Drawing
  import opened Markers

  datatype Board = Board(ink: Ink, layer: Layer)

  /** One handler invocation. Pointer positions are relative to the element's
      top-left corner, as the handlers compute them from `getBoundingClientRect`;
      `painted` is the canvas after a stroke segment is drawn; `width` and
      `height` are the markers layer's `clientWidth` and `clientHeight`. A
      mouseup over the canvas reaches both `CanvasUp` and, by bubbling,
      `DocumentUp`, in that order. */
  datatype Event =
    | ImageLoaded(picture: Snapshot)                          // lines 36-47
    | CanvasDown(ctrl: bool, x: real, y: real, color: string) // lines 73-85
    | CanvasMove(painted: Snapshot)                           // lines 87-92
    | CanvasUp                                                // lines 94-99
    | CanvasLeave                                             // lines 101-103
    | UndoClick                                               // lines 106-111
    | MarkerDown(id: nat, offsetX: real, offsetY: real)       // lines 125-131
    | DocumentMove(x: real, y: real, width: real, height: real) // lines 138-150
    | DocumentUp                                              // lines 152-154

  /** The events whose handlers touch only the markers layer. */
  predicate IsLayerEvent(e: Event) {
    (e.CanvasDown? && e.ctrl) || e.MarkerDown? || e.DocumentMove? || e.DocumentUp?
  }

  /** The page right after `DOMContentLoaded` (lines 8-12). */
  function Start(blank: Snapshot): (b: Board)
    ensures b.ink.history == [] && !b.ink.drawing
    ensures b.layer.markers == [] && b.layer.selected.None? && ValidSelection(b.layer)
  {
    Board(Drawing.Initial(blank), Markers.Initial())
  }

  /** The canvas handlers: everything but the layer events. */
  function StepInk(k: Ink, e: Event): (r: Ink)
    requires !IsLayerEvent(e)
    ensures !(e.ImageLoaded? || e.CanvasUp? || e.UndoClick?) ==> r.history == k.history
    ensures |k.history| >= 1 ==> |r.history| >= 1
    ensures !e.ImageLoaded? && |k.history| >= 1 ==> r.history[0] == k.history[0]
  {
    match e
    case ImageLoaded(picture) => LoadImage(k, picture)
    case CanvasDown(_, _, _, _) => PenDown(k)
    case CanvasMove(painted) => PenMove(k, painted)
    case CanvasUp => PenUp(k)
    case CanvasLeave => Leave(k)
    case UndoClick => Undo(k)
  }

  /** The markers layer handlers. A marker mousedown can only reach a marker
      that exists; an id naming none has no element to receive it and
      changes nothing. */
  function StepLayer(l: Layer, e: Event): (r: Layer)
    requires IsLayerEvent(e) && ValidSelection(l)
    ensures ValidSelection(r)
    ensures |r.markers| >= |l.markers|
  {
    match e
    case CanvasDown(_, x, y, color) => Create(l, x, y, color)
    case MarkerDown(id, offsetX, offsetY) =>
      if id < |l.markers| then Grab(l, id, offsetX, offsetY) else l
    case DocumentMove(x, y, width, height) => Drag(l, x, y, width, height)
    case DocumentUp => Release(l)
  }

  /** Dispatches one event to its handler: layer events to the markers
      layer, all others to the canvas. */
  function Step(b: Board, e: Event): (r: Board)
    requires ValidSelection(b.layer)
    ensures ValidSelection(r.layer)
    ensures |r.layer.markers| >= |b.layer.markers|
    ensures IsLayerEvent(e) ==> r.ink == b.ink
    ensures !IsLayerEvent(e) ==> r.layer == b.layer
    ensures !(e.ImageLoaded? || e.CanvasUp? || e.UndoClick?) ==> r.ink.history == b.ink.history
    ensures |b.ink.history| >= 1 ==> |r.ink.history| >= 1
    ensures !e.ImageLoaded? && |b.ink.history| >= 1 ==> r.ink.history[0] == b.ink.history[0]
  {
    if IsLayerEvent(e) then b.(layer := StepLayer(b.layer, e)) else b.(ink := StepInk(b.ink, e))
  }

  /** Handles the events in order. Across any sequence of events the
      selection stays valid, markers are never removed, and once the history
      holds a snapshot it never becomes empty again. */
  function Run(b: Board, events: seq<Event>): (r: Board)
    requires ValidSelection(b.layer)
    ensures ValidSelection(r.layer)
    ensures |r.layer.markers| >= |b.layer.markers|
    ensures |b.ink.history| >= 1 ==> |r.ink.history| >= 1
    decreases |events|
  {
    if |events| == 0 then b else Run(Step(b, events[0]), events[1..])
  }

  lemma {:induction false} RunAppend(b: Board, first: seq<Event>, rest: seq<Event>)
    requires ValidSelection(b.layer)
    ensures Run(b, first + rest) == Run(Run(b, first), rest)
    decreases |first|
  {
    if |first| > 0 {
      assert (first + rest)[0] == first[0];
      assert (first + rest)[1..] == first[1..] + rest;
      RunAppend(Step(b, first[0]), first[1..], rest);
    } else {
      assert first + rest == rest;
    }
  }

  /** The base snapshot of the history is never removed: only loading another
      image replaces it. */
  lemma {:induction false} RunKeepsBase(b: Board, events: seq<Event>)
    requires ValidSelection(b.layer) && |b.ink.history| >= 1
    requires forall i :: 0 <= i < |events| ==> !events[i].ImageLoaded?
    ensures Run(b, events).ink.history[0] == b.ink.history[0]
    decreases |events|
  {
    if |events| > 0 {
      RunKeepsBase(Step(b, events[0]), events[1..]);
    }
  }

  /** Loading an image and then undoing any number of times leaves exactly the
      loaded image in the history and on the canvas. */
  lemma {:induction false} UndoAfterLoad(b: Board, picture: Snapshot, n: nat)
    requires ValidSelection(b.layer)
    ensures Run(b, [ImageLoaded(picture)] + Undos(n)).ink.history == [picture]
    ensures Run(b, [ImageLoaded(picture)] + Undos(n)).ink.shown == picture
    decreases n
  {
    if n == 0 {
      assert [ImageLoaded(picture)] + Undos(0) == [ImageLoaded(picture)];
    } else {
      assert [ImageLoaded(picture)] + Undos(n) == ([ImageLoaded(picture)] + Undos(n - 1)) + [UndoClick];
      RunAppend(b, [ImageLoaded(picture)] + Undos(n - 1), [UndoClick]);
      UndoAfterLoad(b, picture, n - 1);
    }
  }

  function Undos(n: nat): (u: seq<Event>)
    ensures |u| == n && forall i :: 0 <= i < n ==> u[i] == UndoClick
  {
    seq(n, i => UndoClick)
  }

  /** A ctrl-mousedown places a marker centred on the pointer and starts no
      stroke; a plain mousedown starts a stroke and places nothing. */
  lemma CanvasDownEitherOr(b: Board, x: real, y: real, color: string)
    requires ValidSelection(b.layer)
    ensures var r := Step(b, CanvasDown(true, x, y, color));
      && r.ink == b.ink
      && r.layer.markers == b.layer.markers + [Marker(x - Half, y - Half, color)]
    ensures var r := Step(b, CanvasDown(false, x, y, color));
      && r.ink.drawing && r.ink.history == b.ink.history && r.layer == b.layer
  {
  }

  /** The mousemoves of a stroke, one per picture painted. */
  function Moves(pictures: seq<Snapshot>): (m: seq<Event>)
    ensures |m| == |pictures|
    ensures forall i :: 0 <= i < |m| ==> m[i] == CanvasMove(pictures[i])
  {
    seq(|pictures|, i requires 0 <= i < |pictures| => CanvasMove(pictures[i]))
  }

  /** The canvas mousemove handler on its own, without the document handler
      the same events bubble up to (see `Motions`): it changes only the ink. */
  lemma {:induction false} RunMoves(b: Board, pictures: seq<Snapshot>)
    requires ValidSelection(b.layer)
    ensures Run(b, Moves(pictures)) == Board(Paint(b.ink, pictures), b.layer)
    decreases |pictures|
  {
    if |pictures| > 0 {
      assert Moves(pictures)[1..] == Moves(pictures[1..]);
      RunMoves(Step(b, CanvasMove(pictures[0])), pictures[1..]);
    }
  }

  /** One mousemove during a stroke. The canvas handler paints `painted`; the
      same event then bubbles up to the document, whose handler sees the
      pointer at `(x, y)` over a layer `width` by `height`. */
  datatype Motion = Motion(painted: Snapshot, x: real, y: real, width: real, height: real)

  function Pictures(ms: seq<Motion>): (p: seq<Snapshot>)
    ensures |p| == |ms| && forall i :: 0 <= i < |ms| ==> p[i] == ms[i].painted
  {
    seq(|ms|, i requires 0 <= i < |ms| => ms[i].painted)
  }

  /** The events a sequence of mousemoves over the canvas delivers: each
      reaches the canvas handler and then the document handler. */
  function Motions(ms: seq<Motion>): seq<Event>
    decreases |ms|
  {
    if |ms| == 0 then []
    else [CanvasMove(ms[0].painted), DocumentMove(ms[0].x, ms[0].y, ms[0].width, ms[0].height)]
         + Motions(ms[1..])
  }

  /** Mousemoves over the canvas paint the canvas exactly as the canvas
      handler alone would, and drag the selected marker, if any, to where
      the last of them left the pointer. No other marker moves, and the
      selection and grab offsets stay as they were. */
  lemma {:induction false} RunMotions(b: Board, ms: seq<Motion>)
    requires ValidSelection(b.layer)
    ensures var r := Run(b, Motions(ms));
      && r.ink == Paint(b.ink, Pictures(ms))
      && r.layer.selected == b.layer.selected
      && r.layer.offsetX == b.layer.offsetX && r.layer.offsetY == b.layer.offsetY
      && |r.layer.markers| == |b.layer.markers|
      && (forall j :: 0 <= j < |b.layer.markers| && b.layer.selected != Some(j) ==>
            r.layer.markers[j] == b.layer.markers[j])
      && (b.layer.selected.None? ==> r.layer == b.layer)
    ensures var r := Run(b, Motions(ms));
      b.layer.selected.Some? && |ms| > 0 ==>
        var i, m := b.layer.selected.value, ms[|ms| - 1];
        && r.layer.markers[i].left == Clamp(m.x - b.layer.offsetX, m.width - Size)
        && r.layer.markers[i].top == Clamp(m.y - b.layer.offsetY, m.height - Size)
    decreases |ms|
  {
    if |ms| > 0 {
      var m := ms[0];
      var pair := [CanvasMove(m.painted), DocumentMove(m.x, m.y, m.width, m.height)];
      assert Motions(ms) == pair + Motions(ms[1..]);
      RunAppend(b, pair, Motions(ms[1..]));
      var c := Step(Step(b, pair[0]), pair[1]);
      assert pair[1..] == [pair[1]] && [pair[1]][1..] == [];
      assert Run(b, pair) == Run(Step(b, pair[0]), [pair[1]]) == Run(c, []);
      assert Pictures(ms)[1..] == Pictures(ms[1..]);
      RunMotions(c, ms[1..]);
    }
  }

  /** A pen stroke on the canvas: a plain mousedown, the mousemoves, then
      either a mouseup (which also reaches the document) or a mouseleave. */
  function Stroke(x: real, y: real, color: string, ms: seq<Motion>, leaves: bool): seq<Event> {
    [CanvasDown(false, x, y, color)] + Motions(ms) + (if leaves then [CanvasLeave] else [CanvasUp, DocumentUp])
  }

  /** A stroke ended by a mouseup appends exactly one snapshot, the picture its
      last mousemove painted; one ended by leaving the canvas appends none.
      Either way the stroke is over. Its mousemoves also reach the document,
      so a marker still selected when the stroke began is dragged along with
      the pen; every other marker stays put, and with no marker selected none
      moves. The mouseup drops the selection. */
  lemma StrokeHistory(b: Board, x: real, y: real, color: string, ms: seq<Motion>, leaves: bool)
    requires ValidSelection(b.layer)
    ensures var r := Run(b, Stroke(x, y, color, ms, leaves));
      && !r.ink.drawing
      && r.ink.history == (if leaves then b.ink.history
                           else b.ink.history + [if |ms| == 0 then b.ink.shown else ms[|ms| - 1].painted])
      && |r.layer.markers| == |b.layer.markers|
      && (forall j :: 0 <= j < |b.layer.markers| && b.layer.selected != Some(j) ==>
            r.layer.markers[j] == b.layer.markers[j])
      && (b.layer.selected.None? ==> r.layer.markers == b.layer.markers)
      && (if leaves then r.layer.selected == b.layer.selected else r.layer.selected.None?)
  {
    var down := [CanvasDown(false, x, y, color)];
    var end: seq<Event> := if leaves then [CanvasLeave] else [CanvasUp, DocumentUp];
    assert Stroke(x, y, color, ms, leaves) == (down + Motions(ms)) + end;
    RunAppend(b, down + Motions(ms), end);
    RunAppend(b, down, Motions(ms));
    var d := Run(b, down);
    assert d == Step(b, CanvasDown(false, x, y, color));
    RunMotions(d, ms);
    PaintShowsLast(d.ink, Pictures(ms));
    var m := Run(d, Motions(ms));
    assert m.ink.drawing && m.ink.history == b.ink.history;
    assert m.ink.shown == if |ms| == 0 then b.ink.shown else ms[|ms| - 1].painted;
    if leaves {
      assert [CanvasLeave][1..] == [];
      assert Run(m, end) == Step(m, CanvasLeave);
    } else {
      var u := Step(m, CanvasUp);
      assert end[1..] == [DocumentUp] && [DocumentUp][1..] == [];
      assert Run(m, end) == Run(u, [DocumentUp]);
      assert Run(u, [DocumentUp]) == Step(u, DocumentUp);
    }
  }
}

=== FILE: text.dfy ===
/** The string primitives the dice roller relies on: JavaScript's
    `String.prototype.trim`, the ASCII digit class `\d` of a non-Unicode regular
    expression, and the decimal value `parseInt` gives a run of such digits. */
module Text {

  /** The characters `trim` strips: the WhiteSpace and LineTerminator code points
      of ECMA-262 (TAB, VT, FF, SPACE, NBSP, ZWNBSP, every Unicode "Zs" space,
      LF, CR, LINE SEPARATOR and PARAGRAPH SEPARATOR). */
  predicate IsTrimmable(c: char) {
    || c == '\t' || c == '\U{000B}' || c == '\U{000C}' || c == ' '
    || c == '\U{00A0}' || c == '\U{FEFF}'
    || c == '\U{1680}' || ('\U{2000}' <= c <= '\U{200A}')
    || c == '\U{202F}' || c == '\U{205F}' || c == '\U{3000}'
    || c == '\n' || c == '\r' || c == '\U{2028}' || c == '\U{2029}'
  }

  /** Drops the trimmable characters at the front: the result is the suffix of
      `s` that starts at its first non-trimmable character. */
  function TrimStart(s: string): (r: string)
    ensures |r| <= |s| && r == s[|s| - |r|..]
    ensures forall k :: 0 <= k < |s| - |r| ==> IsTrimmable(s[k])
    ensures |r| > 0 ==> !IsTrimmable(r[0])
  {
    if |s| > 0 && IsTrimmable(s[0]) then TrimStart(s[1..]) else s
  }

  /** Drops the trimmable characters at the back: the result is the prefix of
      `s` that ends at its last non-trimmable character. */
  function TrimEnd(s: string): (r: string)
    ensures |r| <= |s| && r == s[..|r|]
    ensures forall k :: |r| <= k < |s| ==> IsTrimmable(s[k])
    ensures |r| > 0 ==> !IsTrimmable(r[|r| - 1])
  {
    if |s| > 0 && IsTrimmable(s[|s| - 1]) then TrimEnd(s[..|s| - 1]) else s
  }

  /** `r` is the slice of `s` that starts at `i`, with only trimmable
      characters of `s` before and after it. */
  ghost predicate SliceBetweenTrimmable(s: string, r: string, i: int) {
    && 0 <= i <= i + |r| <= |s| && r == s[i..i + |r|]
    && (forall k :: 0 <= k < i ==> IsTrimmable(s[k]))
    && (forall k :: i + |r| <= k < |s| ==> IsTrimmable(s[k]))
  }

  /** `s.trim()`: a slice of `s` with only trimmable characters outside it and
      none at either of its ends. */
  function Trim(s: string): (r: string)
    ensures |r| > 0 ==> !IsTrimmable(r[0]) && !IsTrimmable(r[|r| - 1])
    ensures exists i :: SliceBetweenTrimmable(s, r, i)
  {
    var t := TrimStart(s);
    var r := TrimEnd(t);
    TrimIsSlice(s, t, r);
    r
  }

  lemma TrimIsSlice(s: string, t: string, r: string)
    requires |t| <= |s| && t == s[|s| - |t|..]
    requires forall k :: 0 <= k < |s| - |t| ==> IsTrimmable(s[k])
    requires |t| > 0 ==> !IsTrimmable(t[0])
    requires |r| <= |t| && r == t[..|r|]
    requires forall k :: |r| <= k < |t| ==> IsTrimmable(t[k])
    ensures SliceBetweenTrimmable(s, r, |s| - |t|)
    ensures |r| > 0 ==> !IsTrimmable(r[0])
  {
  }

  /** Trimming a string that has nothing to trim at either end returns it. */
  lemma TrimTrimmed(s: string)
    requires |s| > 0 ==> !IsTrimmable(s[0]) && !IsTrimmable(s[|s| - 1])
    ensures Trim(s) == s
  {
  }

  /** `trim` is idempotent. */
  lemma TrimIdempotent(s: string)
    ensures Trim(Trim(s)) == Trim(s)
  {
    TrimTrimmed(Trim(s));
  }

  /** The regular-expression class `\d` without the `u` flag: ASCII digits only. */
  predicate IsDigit(c: char) {
    '0' <= c <= '9'
  }

  predicate AllDigits(s: string) {
    forall k :: 0 <= k < |s| ==> IsDigit(s[k])
  }

  function DigitValue(c: char): (d: nat)
    requires IsDigit(c)
    ensures d < 10
  {
    c as int - '0' as int
  }

  /** The decimal value of a run of ASCII digits, most significant first, as
      `parseInt(s)` computes it for such a run (leading zeros are allowed). */
  function DecimalValue(s: string): nat
    requires AllDigits(s)
  {
    if |s| == 0 then 0 else DecimalValue(s[..|s| - 1]) * 10 + DigitValue(s[|s| - 1])
  }

  /** A run of digits is worth zero exactly when every digit is `0`. */
  lemma {:induction false} DecimalValueZero(s: string)
    requires AllDigits(s)
    ensures DecimalValue(s) == 0 <==> forall k :: 0 <= k < |s| ==> s[k] == '0'
  {
    if |s| > 0 {
      var p := s[..|s| - 1];
      DecimalValueZero(p);
      assert forall k :: 0 <= k < |p| ==> p[k] == s[k];
    }
  }

  /** The canonical decimal rendering of `n`: digits only, no leading zero
      except for zero itself, and worth exactly `n`. */
  function ShowNat(n: nat): (r: string)
    ensures |r| >= 1 && AllDigits(r)
    ensures DecimalValue(r) == n
    ensures r[0] == '0' <==> n == 0
  {
    var d := ['0' + (n % 10) as char];
    assert DigitValue(d[0]) == n % 10;
    if n < 10 then d
    else
      var p := ShowNat(n / 10);
      var r := p + d;
      assert r[..|r| - 1] == p;
      r
  }

  /** Trimming the front is unaffected by trimmable characters that follow. */
  lemma {:induction false} TrimStartAppend(a: string, b: string)
    requires forall k :: 0 <= k < |b| ==> IsTrimmable(b[k])
    ensures TrimStart(a + b) == if |TrimStart(a)| > 0 then TrimStart(a) + b else []
  {
    if |a| > 0 {
      assert (a + b)[1..] == a[1..] + b;
      if IsTrimmable(a[0]) {
        TrimStartAppend(a[1..], b);
      }
    } else {
      assert a + b == b;
      TrimStartBlank(b);
    }
  }

  lemma TrimStartBlank(b: string)
    requires forall k :: 0 <= k < |b| ==> IsTrimmable(b[k])
    ensures TrimStart(b) == []
  {
  }

  lemma {:induction false} TrimStartPrefix(w: string, x: string)
    requires forall k :: 0 <= k < |w| ==> IsTrimmable(w[k])
    ensures TrimStart(w + x) == TrimStart(x)
  {
    if |w| > 0 {
      assert (w + x)[1..] == w[1..] + x;
      TrimStartPrefix(w[1..], x);
    } else {
      assert w + x == x;
    }
  }

  lemma {:induction false} TrimEndSuffix(x: string, w: string)
    requires forall k :: 0 <= k < |w| ==> IsTrimmable(w[k])
    ensures TrimEnd(x + w) == TrimEnd(x)
  {
    if |w| > 0 {
      var w' := w[..|w| - 1];
      assert (x + w)[..|x + w| - 1] == x + w';
      TrimEndSuffix(x, w');
    } else {
      assert x + w == x;
    }
  }

  /** Trimmable characters added before and after a string are trimmed away
      again, whatever the string is. */
  lemma TrimPadded(before: string, value: string, after: string)
    requires forall k :: 0 <= k < |before| ==> IsTrimmable(before[k])
    requires forall k :: 0 <= k < |after| ==> IsTrimmable(after[k])
    ensures Trim(before + value + after) == Trim(value)
  {
    assert before + value + after == before + (value + after);
    TrimStartPrefix(before, value + after);
    TrimStartAppend(value, after);
    var t := TrimStart(value);
    if |t| > 0 {
      TrimEndSuffix(t, after);
    }
  }
}

=== FILE: wrappers.dfy ===
/** The optional value used wherever the tabletop may or may not have something:
    a regular-expression capture group, a selected marker, a shown roll. */
module Wrappers {

  datatype Option<+T> = None | Some(value: T)
}
